=== FILE: README.md ===
# Document identity extraction and matching, modelled in Dafny

The system takes a photo of an identity document, either as a direct upload
or through a WhatsApp webhook. It runs OCR on the image and finds the
person's name and address with two regular expressions (`Nombre:\s*(.+)`
and `Dirección:\s*(.+)`). It stores the image and the two fields in the
MongoDB collection `documentos_db.imagenes`, then reports the first stored
record with the same (name, address) pair. This project models that
pipeline as pure functions:

- `Text`: Python's white space class (`str.isspace`, which is also what `\s` matches) and `str.strip()`.
- `Regex`: `re.search` of a literal label followed by `\s*(.+)`. Its result is the span of group 1. `Accepts` and `Preferred` give an independent reference semantics: the splits the pattern admits, and the one a backtracking matcher reports.
- `Extraction`: `extraer_nombre_y_direccion`, the "" fallback of `extraer_texto`, and the fallback of `preprocesar_imagen`.
- `Database`: the collection as an append-only `seq<Record>` in natural order, taken to be insertion order (see "Left out"), plus `insert_one`, `find_one` and `buscar_en_base_datos`.
- `Requests`, `MainRoutes`, `AppRoutes`: the handlers for `/upload`, `/whatsapp`, `/upload_file` and `/datos`. Each is a function from (request, store, outcomes of the foreign calls) to (answer, store).
- `Service`: one shared store for both applications, any request routed to its handler, and runs of requests.

Foreign calls are not modelled; they are inputs. A `World` value holds the
outcome of each foreign call for one request:

- The OCR engine: `Bytes -> Option<string>`, where `None` means the engine raised.
- The image download: `string -> Option<Bytes>`.
- The PIL normalisation: `Bytes -> Option<Bytes>`.
- Whether each of these raises: saving the file, reading it back, `insert_one`, `find_one`, and `jsonify`.

## Behaviour worth knowing

- A field can be the empty string. `"Nombre: "` at the end of the text matches: backtracking leaves one blank character to `(.+)`, and `strip()` removes it (`BlankNameAtEnd`).
- `\s*` crosses line breaks. A label with nothing after it on its line takes as its value the first following text that is not white space, up to the end of that line. Blank lines and indentation in between are skipped (`NameOnNextLine`, `NameAfterBlankLine`, `LabeledValue`). A label followed only by line breaks at the end of the text gives no value at all (`NewlineOnlyNameNotFound`).
- The first occurrence of a label decides its field. When the pattern fails there, only line breaks follow, so no later occurrence can match either (`FirstOccurrenceDecides`).
- The ingesting routes insert the record before they look it up. A successful ingestion therefore finds a record, its own at the latest, unless `find_one` raises (`InsertThenLookup`). This rests on the store-order assumption under "Left out".

## Model

| member | source | states |
|---|---|---|
| Text.Strip | main.py:57-58 | `strip()` leaves no white space at either end, keeps only characters of its input, and is empty exactly when the input is all white space |
| Text.StripExact | main.py:57-58 | `strip()` of white space + trimmed middle + white space is exactly that middle, so it removes only white space at the ends |
| Text.StripIdempotent | main.py:57-58 | stripping a stripped value changes nothing |
| Regex.CaptureAt | main.py:51-52 | `\s*(.+)` at a position matches exactly when some split is admitted (the white space run, then at least one character before the next line break), and the span it reports is the backtracking preference: the longest `\s*`, then the longest `(.+)` |
| Regex.MatchAt | main.py:51-52 | the whole pattern at one position needs the literal, case-sensitive label there plus a match of `\s*(.+)` right after it |
| Regex.Search | main.py:54-55 | `re.search` reports the leftmost position where the whole pattern matches; no earlier position matches, and when it finds nothing no position matches |
| Extraction.FindField | main.py:54-57 | a found value has no white space at either end and no line break; nothing is found exactly when the pattern matches nowhere, and in particular when the label does not occur |
| Extraction.ParseFields | main.py:50-58 | both fields are trimmed and single-line; each field is its sentinel whenever its own label is absent, whatever happens to the other field |
| Extraction.ExtractText | main.py:39-46 | `extraer_texto` returns the OCR engine's text, and "" when opening the image or running the engine raises |
| Extraction.Preprocess | main.py:62-72 | `preprocesar_imagen` leads to the normalised image, and to the original image when normalisation fails |
| Extraction.OcrFailureYieldsSentinels | main.py:39-46 | when OCR raises, the text is "" and the fields are "No se encontró el nombre" and "No se encontró la dirección" |
| Extraction.LeftmostOccurrenceWins | main.py:54-57 | the first position where the whole pattern matches decides the field |
| Extraction.FirstOccurrenceDecides | main.py:51-57 | for a label that does not end in a line break, the first occurrence decides the field: its stripped group when the pattern matches there, and not found otherwise |
| Extraction.LabeledValueMatch | main.py:51-52 | after a label, a white space run and a value that starts with a non-space character and ends at a line break or the end of the text, group 1 spans exactly that value |
| Extraction.LabeledValue | main.py:50-58 | label, white space, a value starting with a non-space character and ending at a line break or the end of the text: the field is that value stripped, provided the label does not occur earlier |
| Extraction.LabeledTrimmedValue | main.py:50-58 | the same, for a value already trimmed: the field is the value itself |
| Extraction.TrailingBlankValue | main.py:51-57 | a label followed only by white space that includes a non-newline character yields the empty value, not the sentinel |
| Extraction.TrailingNewlinesNoValue | main.py:51-58 | a label followed only by line breaks does not match; when the label does not occur earlier, the field is not found |
| Extraction.NoLabelWithin | main.py:54-55 | a label cannot start inside a text prefix that lacks the label's first character |
| Extraction.SampleName | main.py:54-57 | the name of "Nombre: Ana Ruiz\nDirección: Calle 5" is "Ana Ruiz" |
| Extraction.SampleAddress | main.py:55-58 | the address of that document is "Calle 5" |
| Extraction.NameAndAddressLines | main.py:50-58 | that document parses to ("Ana Ruiz", "Calle 5") |
| Extraction.FirstNameLineWins | main.py:54-57 | with two name lines "A" and "B", the name is "A" |
| Extraction.NameOnNextLine | main.py:51-57 | "Nombre:\nJuan" gives the name "Juan", because `\s*` crosses the line break |
| Extraction.NameAfterBlankLine | main.py:51-57 | "Nombre:\n\n  Juan\nX" gives the name "Juan": `\s*` skips a blank line and indentation, and `(.+)` stops at the next line break |
| Extraction.BlankNameAtEnd | main.py:51-57 | "Nombre: " gives the empty name |
| Extraction.NewlineOnlyNameNotFound | main.py:51-58 | "Nombre:\n" gives the name sentinel |
| Database.InsertOne | app.py:39-43 | `insert_one` adds exactly one record, after all existing ones, and changes none of them |
| Database.FindOne | main.py:78 | `find_one` with the two-field filter gives the first record in store order whose name and address both equal the query, or nothing exactly when no record matches |
| Database.Lookup | main.py:76-82 | `buscar_en_base_datos` returns a document of the store that matches both fields; it returns "No se encontraron coincidencias" exactly when the store is reachable and nothing matches, and "Error en la búsqueda" when `find_one` raises |
| Database.LookupReturnsFirstMatch | main.py:78-79 | the document returned is the first match in store order |
| Database.InsertThenLookup | app.py:38-46 | after inserting a record, the lookup of its own fields returns the earliest earlier duplicate, or else the record itself; it never returns the no-match message |
| Database.AppendKeepsEarlierMatch | main.py:78 | appending records never changes the document a successful lookup finds |
| Requests.ValidateUpload | app.py:20-25 | a request without a `file` part is a 400 "No se envió ningún archivo"; an empty filename is a 400 "El archivo está vacío"; any other file passes |
| MainRoutes.Upload | main.py:92-110 | `/upload` never touches the store. It rejects a missing file or an empty filename with 400. It answers 500 "Error al procesar el archivo" exactly when saving fails, since 400 is answered exactly for the two validation failures and 200 exactly when saving succeeds. Otherwise it returns the fields parsed from the OCR text of the saved file |
| MainRoutes.WhatsApp | main.py:116-147 | Without `MediaUrl0` it asks for an image and leaves the store unchanged. Every failure of download, write, read-back or insert gives the apology (any reply but the summary, given `MediaUrl0`) and leaves the store unchanged. Otherwise it appends exactly one record holding the fields parsed from the OCR text of the (normalised or original) image and that image's bytes. Its lookup then finds a record with the reply's fields, or reports the search error |
| MainRoutes.ReplyText | main.py:139-145 | the apology and the request for an image are the fixed Spanish texts the route sends |
| MainRoutes.SummaryReparses | main.py:139 | the text of the summary reply, read back by the field parser, gives (n, d) for non-empty parsed fields whose name does not contain the address label |
| AppRoutes.UploadFile | app.py:19-55 | It rejects a missing file or an empty filename with 400 and leaves the store unchanged. The store grows by exactly one record exactly when save, read-back and insert succeed; that record holds the fields parsed from the OCR text of the saved file and the file's bytes, and nothing else changes. It answers 200 exactly when the store grew and rendering succeeds. The response's fields are the parsed ones. `resultado` is a record with those fields unless `find_one` raises. After a successful insert, a `find_one` that does not raise finds a document. Every other outcome is 500 "Error al procesar el archivo": 400 is answered exactly for the two validation failures |
| AppRoutes.ShowData | app.py:58-61 | `/datos` echoes `nombre` and `domicilio` unchanged and shows "No disponible" for each one that is missing |
| AppRoutes.RepeatedUploadFindsEarlierRecord | app.py:38-46 | of two uploads in a row whose images parse to the same fields and whose save, read-back and insert succeed, the `find_one` of each finds a document, the second finds the same document as the first, and that document is the first upload's own record when no such record existed before; rendering plays no part |
| Service.Handle | main.py:34-35 | every route, whichever application serves it, leaves the shared collection either unchanged or extended by one record at the end; `/upload` and `/datos` never change it |
| Service.Run | app.py:15-16 | a run of requests against the shared collection keeps every earlier record in place and adds at most one record per request |
| Service.HandlePreservesWellFormed | main.py:129-136 | every record a handler stores has trimmed, single-line name and address fields |
| Service.RunPreservesWellFormed | app.py:35-43 | any run of requests keeps every stored field trimmed and single-line |
| Service.RunKeepsEarlierMatch | main.py:76-82 | once a lookup finds a document, later requests to either application never change what that lookup finds |

## Left out

- OCR engine: Tesseract (main.py:41-42) is an oracle in `World.ocr`. Engine and decode failures are `None`, which `ExtractText` maps to "".
- Image normalisation: the PIL work (RGB, 1024×1024, JPEG quality 85; main.py:62-72) is an oracle in `World.normalize`. `Preprocess` models only the rule "the normalised image, or the original one on any failure".
- Download, files and paths: the image download (`requests.get`), file writes and reads, `secure_filename`, `os.makedirs` and the upload folder layout are I/O. Each is an outcome flag or oracle in `World`; a filename that `secure_filename` empties shows up as a failed save.
- Web framework: Flask routing and the `/` index page (main.py:86-88) are left out. So is `render_template` of `/datos`: `ShowData` returns the two values the page shows.
- Twilio: the `MessagingResponse` envelope is left out. `str(resultado)` in the summary is the parameter `show` of `ReplyText`, since Python's `repr` of a dict is outside the model.
- JSON serialisation: `jsonify` of `resultado` (app.py:48-52) is the `renderOk` flag, and no property of serialisation is stated. The `AppRoutes.UploadFile` line below says what this leaves out.
- MongoDB setup: the MongoClient connection, environment variables (main.py:19, main.py:32-35, app.py:13-16), logging and the `_id` field that MongoDB adds are left out.
- `if file:` (main.py:101, app.py:27): the filename was already checked to be non-empty and werkzeug's `FileStorage` is truthy exactly when its filename is, so the check is always true and the function never falls off its end.
- Store order: `find_one` (main.py:78) has no sort, so it scans the collection in MongoDB's natural order. The model takes natural order to be insertion order, which MongoDB does not promise. `FindOne`, `InsertThenLookup`, `AppendKeepsEarlierMatch`, `RunKeepsEarlierMatch` and `RepeatedUploadFindsEarlierRecord` rest on this.
- Failed inserts: a raising `insert_one` (main.py:132-136, app.py:39-43) is taken to have written nothing. pymongo can raise after the server has applied the write, for example on a network error after sending or a write-concern error. The model does not cover that case, and the "store unchanged on failure" clauses of `WhatsApp` and `UploadFile` rest on this.
- AppRoutes.UploadFile: in the program the 200 answer with a matched document does not happen. The app's plain `Flask` JSON encoder (app.py:8) rejects the document's `bytes` image and its ObjectId `_id`, so `jsonify` (app.py:48-52) raises whenever `resultado` is a document, and the request ends in the 500 branch after the insert. Rendering stays the abstract `renderOk` flag, so the contract still admits a 200 with a document. In the program `/upload_file` answers 200 only when `find_one` raised.
- Concurrency: concurrent requests racing on the unlocked collection are out of scope. The model handles requests one at a time.

=== FILE: app_routes.dfy ===
/** The route handlers of app.py: `/upload_file` ingests an uploaded image
    (save, OCR, parse, insert, then lookup) and `/datos` echoes its query. */
module AppRoutes {
  import opened Common
  import opened Extraction
  import opened Database
  import opened Requests

  /** POST /upload_file. A fault while saving, reading back or inserting is a
      500 with the store unchanged; a fault while rendering the answer is a
      500 after the insert; a lookup fault is no exception but the
      "Error en la búsqueda" result. */
  function UploadFile(file: Option<UploadedFile>, s: Store, w: World): (r: Step<Response>)
    ensures file.None? ==> r == Step(Response(400, ErrorBody(NoFileError)), s)
    ensures file.Some? && file.value.filename == "" ==> r == Step(Response(400, ErrorBody(EmptyFileError)), s)
    ensures r.store != s <==>
              file.Some? && file.value.filename != "" && w.saveOk && w.readOk && w.insertOk
    ensures r.store != s ==> r.store == InsertOne(s, IngestedRecord(w.ocr, file.value.content))
    ensures r.response.status == 200 <==> r.store != s && w.renderOk
    ensures r.response.status == 200 ==>
              var rec := IngestedRecord(w.ocr, file.value.content);
              && r.response.body.ResultBody?
              && r.response.body.nombre == rec.nombre
              && r.response.body.direccion == rec.direccion
              && r.response.body.resultado == Lookup(r.store, rec.nombre, rec.direccion, w.lookupOk)
    ensures r.response.status == 200 && w.lookupOk ==>
              r.response.body.resultado.Document? &&
              Matches(r.response.body.resultado.record, r.response.body.nombre, r.response.body.direccion)
    ensures r.response.status == 200 && !w.lookupOk ==>
              r.response.body.resultado == Mensaje(SearchErrorMessage)
    ensures r.store != s ==>
              var rec := IngestedRecord(w.ocr, file.value.content);
              Lookup(r.store, rec.nombre, rec.direccion, true).Document?
    ensures r.response.status == 500 ==> r.response.body == ErrorBody(ProcessingError)
    ensures r.response.status == 400 <==> file.None? || file.value.filename == ""
    ensures r.response.status in {200, 400, 500}
  {
    match ValidateUpload(file)
    case Some(rejection) => Step(rejection, s)
    case None =>
      if !w.saveOk then Step(Response(500, ErrorBody(ProcessingError)), s)
      else
        var fields := ParseFields(ExtractText(w.ocr, file.value.content));
        if !w.readOk || !w.insertOk then Step(Response(500, ErrorBody(ProcessingError)), s)
        else
          var rec := Record(fields.0, fields.1, file.value.content);
          var s' := InsertOne(s, rec);
          InsertThenLookup(s, rec);
          var resultado := Lookup(s', fields.0, fields.1, w.lookupOk);
          if !w.renderOk then Step(Response(500, ErrorBody(ProcessingError)), s')
          else Step(Response(200, ResultBody(fields.0, fields.1, resultado)), s')
  }

  const NotAvailable: string := "No disponible"

  /** GET /datos: the query values `nombre` and `domicilio` as given, each
      defaulting to "No disponible" when absent. `args` maps each query key
      to its first value, as `request.args.get` returns for a repeated key. */
  function ShowData(args: map<string, string>): (r: (string, string))
    ensures "nombre" in args ==> r.0 == args["nombre"]
    ensures "nombre" !in args ==> r.0 == NotAvailable
    ensures "domicilio" in args ==> r.1 == args["domicilio"]
    ensures "domicilio" !in args ==> r.1 == NotAvailable
  {
    (if "nombre" in args then args["nombre"] else NotAvailable,
     if "domicilio" in args then args["domicilio"] else NotAvailable)
  }

  /** Two uploads, one after the other, whose images parse to the same
      fields and whose save, read-back and insert succeed: the `find_one` of
      the second finds the document the `find_one` of the first found, and
      that is the first one's own record when the store had no such record
      before. Whether the answers can be rendered plays no part. */
  lemma RepeatedUploadFindsEarlierRecord(f1: UploadedFile, f2: UploadedFile, s: Store, w1: World, w2: World)
    requires f1.filename != "" && f2.filename != ""
    requires w1.saveOk && w1.readOk && w1.insertOk
    requires w2.saveOk && w2.readOk && w2.insertOk
    requires IngestedRecord(w1.ocr, f1.content).nombre == IngestedRecord(w2.ocr, f2.content).nombre
    requires IngestedRecord(w1.ocr, f1.content).direccion == IngestedRecord(w2.ocr, f2.content).direccion
    ensures var rec1 := IngestedRecord(w1.ocr, f1.content);
            var first := UploadFile(Some(f1), s, w1);
            var second := UploadFile(Some(f2), first.store, w2);
            && Lookup(first.store, rec1.nombre, rec1.direccion, true).Document?
            && Lookup(second.store, rec1.nombre, rec1.direccion, true)
                 == Lookup(first.store, rec1.nombre, rec1.direccion, true)
            && (Lookup(s, rec1.nombre, rec1.direccion, true).Mensaje? ==>
                  Lookup(first.store, rec1.nombre, rec1.direccion, true) == Document(rec1))
  {
    var rec1 := IngestedRecord(w1.ocr, f1.content);
    var rec2 := IngestedRecord(w2.ocr, f2.content);
    var s1 := InsertOne(s, rec1);
    InsertThenLookup(s, rec1);
    InsertThenLookup(s1, rec2);
  }
}

=== FILE: common.dfy ===
/** Small shared vocabulary: an optional value and the byte type of image blobs. */
module Common {

  /** A value that may be absent; `None` also stands for a foreign call that raised. */
  datatype Option<+T> = None | Some(value: T)

  /** One byte of an image file. */
  newtype byte = x: int | 0 <= x < 256

  /** The raw contents of an image file. */
  type Bytes = seq<byte>
}

=== FILE: database.dfy ===
/** The `documentos_db.imagenes` collection shared by main.py and app.py:
    an append-only sequence of records in natural (taken as insertion) order, `insert_one`,
    `find_one` with a two-field equality filter, and `buscar_en_base_datos`. */
module Database {
  import opened Common

  /** One stored document: the parsed fields and the image file's bytes. */
  datatype Record = Record(nombre: string, direccion: string, imagen: Bytes)

  /** The collection, in the natural order `find_one` scans it, which the
      model takes to be insertion order. */
  type Store = seq<Record>

  /** The filter `{"nombre": nombre, "direccion": direccion}`: both fields equal. */
  predicate Matches(r: Record, nombre: string, direccion: string)
  {
    r.nombre == nombre && r.direccion == direccion
  }

  /** `insert_one`: the new record goes after every existing one. */
  function InsertOne(s: Store, r: Record): (s': Store)
    ensures |s'| == |s| + 1
    ensures s'[..|s|] == s && s'[|s|] == r
  {
    s + [r]
  }

  /** The first index at or after `from` whose record passes the filter. */
  function FindFrom(s: Store, nombre: string, direccion: string, from: nat): (r: Option<nat>)
    requires from <= |s|
    ensures r.Some? ==> from <= r.value < |s| && Matches(s[r.value], nombre, direccion)
    ensures r.Some? ==> forall i :: from <= i < r.value ==> !Matches(s[i], nombre, direccion)
    ensures r.None? ==> forall i :: from <= i < |s| ==> !Matches(s[i], nombre, direccion)
    decreases |s| - from
  {
    if from == |s| then None
    else if Matches(s[from], nombre, direccion) then Some(from)
    else FindFrom(s, nombre, direccion, from + 1)
  }

  /** `find_one` without a sort: the index of the first record, in the
      store's (natural) order, that passes the filter. */
  function FindOne(s: Store, nombre: string, direccion: string): (r: Option<nat>)
    ensures r.Some? ==> r.value < |s| && Matches(s[r.value], nombre, direccion)
    ensures r.Some? ==> forall i :: 0 <= i < r.value ==> !Matches(s[i], nombre, direccion)
    ensures r.None? <==> forall i :: 0 <= i < |s| ==> !Matches(s[i], nombre, direccion)
  {
    FindFrom(s, nombre, direccion, 0)
  }

  /** What `buscar_en_base_datos` returns: the matched document or a `{"mensaje": …}` dict. */
  datatype Resultado = Document(record: Record) | Mensaje(text: string)

  const NoMatchMessage: string := "No se encontraron coincidencias"
  const SearchErrorMessage: string := "Error en la búsqueda"

  /** `buscar_en_base_datos`; `storeOk` is false when `find_one` raises.
      Nothing about the store changes: it is an argument, not a result. */
  function Lookup(s: Store, nombre: string, direccion: string, storeOk: bool): (r: Resultado)
    ensures !storeOk ==> r == Mensaje(SearchErrorMessage)
    ensures r.Document? ==> storeOk && Matches(r.record, nombre, direccion) && r.record in s
    ensures r == Mensaje(NoMatchMessage) <==>
              storeOk && forall i :: 0 <= i < |s| ==> !Matches(s[i], nombre, direccion)
  {
    if !storeOk then Mensaje(SearchErrorMessage)
    else match FindOne(s, nombre, direccion)
      case Some(i) => Document(s[i])
      case None => Mensaje(NoMatchMessage)
  }

  /** The document returned is the first match in store order. */
  lemma LookupReturnsFirstMatch(s: Store, nombre: string, direccion: string, i: nat)
    requires i < |s| && Matches(s[i], nombre, direccion)
    requires forall k :: 0 <= k < i ==> !Matches(s[k], nombre, direccion)
    ensures Lookup(s, nombre, direccion, true) == Document(s[i])
  {
  }

  /** Inserting before looking up: the lookup of the inserted record's own
      fields finds the earliest earlier duplicate if there is one, and
      otherwise the inserted record itself, never the no-match message. */
  lemma InsertThenLookup(s: Store, r: Record)
    ensures var found := Lookup(InsertOne(s, r), r.nombre, r.direccion, true);
            found == (if Lookup(s, r.nombre, r.direccion, true).Document?
                      then Lookup(s, r.nombre, r.direccion, true)
                      else Document(r))
  {
  }

  /** Appending never changes what a lookup that already succeeded finds. */
  lemma AppendKeepsEarlierMatch(s: Store, extra: Store, nombre: string, direccion: string)
    requires Lookup(s, nombre, direccion, true).Document?
    ensures Lookup(s + extra, nombre, direccion, true) == Lookup(s, nombre, direccion, true)
  {
    var i := FindOne(s, nombre, direccion).value;
    assert forall k :: 0 <= k <= i ==> (s + extra)[k] == s[k];
    LookupReturnsFirstMatch(s + extra, nombre, direccion, i);
  }
}

=== FILE: extraction.dfy ===
/** The text side of main.py: `extraer_texto` (OCR with failure mapped to ""),
    `extraer_nombre_y_direccion` (the two field searches) and the outcome
    rule of `preprocesar_imagen`. */
module Extraction {
  import opened Common
  import opened Text
  import opened Regex

  const NombreLabel: string := "Nombre:"
  const DireccionLabel: string := "Dirección:"

  /** What each field becomes when its pattern finds no match. */
  const NombreNotFound: string := "No se encontró el nombre"
  const DireccionNotFound: string := "No se encontró la dirección"

  /** `extraer_texto`: the OCR engine's text, or "" when opening the image or
      running the engine raises (`None` from the oracle). */
  function ExtractText(ocr: Bytes -> Option<string>, image: Bytes): (r: string)
    ensures ocr(image).None? ==> r == ""
    ensures ocr(image).Some? ==> r == ocr(image).value
  {
    match ocr(image)
    case Some(text) => text
    case None => ""
  }

  /** The bytes behind the path `preprocesar_imagen` returns: the normalised
      image, or the original one when decoding or encoding fails. */
  function Preprocess(normalize: Bytes -> Option<Bytes>, image: Bytes): (r: Bytes)
    ensures normalize(image).None? ==> r == image
    ensures normalize(image).Some? ==> r == normalize(image).value
  {
    match normalize(image)
    case Some(normalized) => normalized
    case None => image
  }

  /** One field: `re.search(tag + r'\s*(.+)', t)`, then `group(1).strip()`;
      `None` when the search finds nothing. */
  function FindField(t: string, tag: string): (r: Option<string>)
    ensures r.Some? ==> Trimmed(r.value) && '\n' !in r.value
    ensures r.None? <==> forall p: nat :: MatchAt(t, tag, p).None?
    ensures (forall p: nat :: !LabelAt(t, tag, p)) ==> r.None?
  {
    match Search(t, tag, 0)
    case None => None
    case Some(m) =>
      var g := t[m.group.start..m.group.end];
      assert '\n' !in g;
      Some(Strip(g))
  }

  /** A field's value, or its sentinel when the pattern found nothing. */
  function OrSentinel(found: Option<string>, sentinel: string): string
  {
    match found
    case Some(v) => v
    case None => sentinel
  }

  /** `extraer_nombre_y_direccion`: the name and the address, searched for
      independently of each other. */
  function ParseFields(t: string): (r: (string, string))
    ensures Trimmed(r.0) && '\n' !in r.0
    ensures Trimmed(r.1) && '\n' !in r.1
    ensures (forall p: nat :: !LabelAt(t, NombreLabel, p)) ==> r.0 == NombreNotFound
    ensures (forall p: nat :: !LabelAt(t, DireccionLabel, p)) ==> r.1 == DireccionNotFound
  {
    (OrSentinel(FindField(t, NombreLabel), NombreNotFound),
     OrSentinel(FindField(t, DireccionLabel), DireccionNotFound))
  }

  /** When OCR fails the text is "", and "" parses to both sentinels. */
  lemma OcrFailureYieldsSentinels(ocr: Bytes -> Option<string>, image: Bytes)
    requires ocr(image).None?
    ensures ParseFields(ExtractText(ocr, image)) == (NombreNotFound, DireccionNotFound)
  {
  }

  /** The search is leftmost: the first position at which the whole pattern
      matches decides the field. */
  lemma LeftmostOccurrenceWins(t: string, tag: string, p: nat)
    requires MatchAt(t, tag, p).Some?
    requires forall p': nat :: p' < p ==> MatchAt(t, tag, p').None?
    ensures FindField(t, tag) == Some(Strip(t[MatchAt(t, tag, p).value.start..MatchAt(t, tag, p).value.end]))
  {
  }

  /** When `\s*(.+)` cannot match at `q`, everything from `q` on is a line break. */
  lemma UnmatchableIsNewlines(t: string, q: nat)
    requires q <= |t| && CaptureAt(t, q).None?
    ensures forall k :: q <= k < |t| ==> t[k] == '\n'
  {
    assert SkipSpaces(t, q) == |t|;
    assert LastNonNewline(t, q, |t|).None?;
  }

  /** The first occurrence of a label that does not end in a line break
      decides the field: an occurrence where the pattern fails is followed
      only by line breaks, so no later occurrence fits. */
  lemma FirstOccurrenceDecides(t: string, tag: string, p: nat)
    requires |tag| > 0 && tag[|tag| - 1] != '\n'
    requires LabelAt(t, tag, p)
    requires forall p': nat :: p' < p ==> !LabelAt(t, tag, p')
    ensures MatchAt(t, tag, p).None? ==> FindField(t, tag).None?
    ensures MatchAt(t, tag, p).Some? ==>
              FindField(t, tag) == Some(Strip(t[MatchAt(t, tag, p).value.start..MatchAt(t, tag, p).value.end]))
  {
    if MatchAt(t, tag, p).None? {
      var q := p + |tag|;
      UnmatchableIsNewlines(t, q);
      forall p': nat | p < p' && p' + |tag| <= |t| ensures !LabelAt(t, tag, p') {
        assert t[p'..p' + |tag|][|tag| - 1] == t[p' + |tag| - 1] == '\n';
      }
    } else {
      LeftmostOccurrenceWins(t, tag, p);
    }
  }

  /** Where the pattern matches when a label is followed by white space and
      a value that starts with a non-space character and runs to a line
      break or the end of the text: group 1 is exactly that value. */
  lemma LabeledValueMatch(t: string, tag: string, p: nat, j: nat, m: nat)
    requires LabelAt(t, tag, p)
    requires p + |tag| <= j < m <= |t|
    requires AllSpace(t[p + |tag|..j]) && !IsSpace(t[j])
    requires '\n' !in t[j..m]
    requires t[m..] == [] || t[m..][0] == '\n'
    ensures MatchAt(t, tag, p) == Some(Span(j, m))
  {
    SpacesThenValue(t, p + |tag|, j);
    ValueThenLineBreak(t, j, m);
  }

  /** The slices of a text laid out as prefix, label, white space, value and rest. */
  lemma Layout(t: string, tag: string, pre: string, ws: string, v: string, rest: string)
    requires t == pre + tag + ws + v + rest
    ensures LabelAt(t, tag, |pre|)
    ensures t[|pre| + |tag|..|pre| + |tag| + |ws|] == ws
    ensures t[|pre| + |tag| + |ws|..|pre| + |tag| + |ws| + |v|] == v
    ensures t[|pre| + |tag| + |ws| + |v|..] == rest
  {
    var a := pre + tag;
    var b := a + ws;
    var c := b + v;
    assert t == c + rest;
    assert t[..|c|] == c && t[|c|..] == rest;
    assert c[..|b|] == b && c[|b|..] == v;
    assert b[..|a|] == a && b[|a|..] == ws;
    assert a[|pre|..] == tag;
  }

  /** The white space run from `q` ends at `j` when `t[q..j]` is white space
      and `t[j]` is not. */
  lemma SpacesThenValue(t: string, q: nat, j: nat)
    requires q <= j < |t|
    requires AllSpace(t[q..j]) && !IsSpace(t[j])
    ensures SkipSpaces(t, q) == j
  {
    assert forall k :: q <= k < j ==> t[k] == t[q..j][k - q];
  }

  /** The line containing `j` ends at `m` when `t[j..m]` has no line break and
      `m` is the end of the text or a line break. */
  lemma ValueThenLineBreak(t: string, j: nat, m: nat)
    requires j <= m <= |t|
    requires '\n' !in t[j..m]
    requires t[m..] == [] || t[m..][0] == '\n'
    ensures LineEnd(t, j) == m
  {
    assert forall k :: j <= k < m ==> t[k] == t[j..m][k - j];
    assert m < |t| ==> t[m] == t[m..][0];
  }

  /** A label, white space (which may include line breaks), a value starting
      with a non-space character, and then a line break or the end of the
      text: the field is that value, stripped, provided the label does not
      occur earlier. */
  lemma LabeledValue(t: string, tag: string, pre: string, ws: string, v: string, rest: string)
    requires t == pre + tag + ws + v + rest
    requires forall p: nat :: p < |pre| ==> !LabelAt(t, tag, p)
    requires AllSpace(ws)
    requires |v| > 0 && !IsSpace(v[0]) && '\n' !in v
    requires rest == [] || rest[0] == '\n'
    ensures FindField(t, tag) == Some(Strip(v))
  {
    var j := |pre| + |tag| + |ws|;
    Layout(t, tag, pre, ws, v, rest);
    LabeledValueMatch(t, tag, |pre|, j, j + |v|);
    LeftmostOccurrenceWins(t, tag, |pre|);
  }

  /** LabeledValue for a value that is already trimmed: it is found as is. */
  lemma LabeledTrimmedValue(t: string, tag: string, pre: string, ws: string, v: string, rest: string)
    requires t == pre + tag + ws + v + rest
    requires forall p: nat :: p < |pre| ==> !LabelAt(t, tag, p)
    requires AllSpace(ws)
    requires |v| > 0 && Trimmed(v) && '\n' !in v
    requires rest == [] || rest[0] == '\n'
    ensures FindField(t, tag) == Some(v)
  {
    LabeledValue(t, tag, pre, ws, v, rest);
    StripExact([], v, []);
    assert [] + v + [] == v;
  }

  /** The degenerate match: a label followed only by white space that is not
      all line breaks yields the empty value, since backtracking leaves one
      white space character to `(.+)` and strip removes it. */
  lemma TrailingBlankValue(t: string, tag: string, pre: string, ws: string, i: nat)
    requires t == pre + tag + ws
    requires forall p: nat :: p < |pre| ==> !LabelAt(t, tag, p)
    requires AllSpace(ws)
    requires i < |ws| && ws[i] != '\n'
    ensures FindField(t, tag) == Some("")
  {
    var q := |pre| + |tag|;
    assert t[|pre|..q] == tag;
    assert forall k :: q <= k < |t| ==> t[k] == ws[k - q];
    assert t[q + i] != '\n';
    assert SkipSpaces(t, q) == |t|;
    LeftmostOccurrenceWins(t, tag, |pre|);
  }

  /** A label followed only by line breaks is not a match; when the label
      does not occur earlier the field is not found. */
  lemma TrailingNewlinesNoValue(t: string, tag: string, pre: string, nl: string)
    requires t == pre + tag + nl
    requires |tag| > 0 && !IsSpace(tag[|tag| - 1])
    requires forall p: nat :: p < |pre| ==> !LabelAt(t, tag, p)
    requires forall k :: 0 <= k < |nl| ==> nl[k] == '\n'
    ensures FindField(t, tag) == None
  {
  }

  /** No occurrence of `tag` starts inside `pre` when `pre` lacks its first character. */
  lemma NoLabelWithin(t: string, tag: string, pre: string)
    requires |tag| > 0 && |pre| <= |t| && t[..|pre|] == pre
    requires tag[0] !in pre
    ensures forall p: nat :: p < |pre| ==> !LabelAt(t, tag, p)
  {
  }

  /** The sample document used in the lemmas below: a name line and an address line. */
  const SampleDocument: string := "Nombre: Ana Ruiz\nDirección: Calle 5"

  /** The name of the sample document comes from its first line. */
  lemma SampleName()
    ensures FindField(SampleDocument, NombreLabel) == Some("Ana Ruiz")
  {
    assert SampleDocument == "" + NombreLabel + " " + "Ana Ruiz" + "\nDirección: Calle 5";
    LabeledTrimmedValue(SampleDocument, NombreLabel, "", " ", "Ana Ruiz", "\nDirección: Calle 5");
  }

  /** The address of the sample document comes from its second line. */
  lemma SampleAddress()
    ensures FindField(SampleDocument, DireccionLabel) == Some("Calle 5")
  {
    var pre := "Nombre: Ana Ruiz\n";
    assert SampleDocument == pre + DireccionLabel + " " + "Calle 5" + "";
    NoLabelWithin(SampleDocument, DireccionLabel, pre);
    LabeledTrimmedValue(SampleDocument, DireccionLabel, pre, " ", "Calle 5", "");
  }

  /** A document with one name line and one address line. */
  lemma NameAndAddressLines()
    ensures ParseFields(SampleDocument) == ("Ana Ruiz", "Calle 5")
  {
    SampleName();
    SampleAddress();
  }

  /** Of two name lines, the first one is taken. */
  lemma FirstNameLineWins()
    ensures ParseFields("Nombre: A\nNombre: B").0 == "A"
  {
    LabeledTrimmedValue("Nombre: A\nNombre: B", NombreLabel, "", " ", "A", "\nNombre: B");
  }

  /** `\s*` crosses the line break after a label, so the next line becomes the value. */
  lemma NameOnNextLine()
    ensures ParseFields("Nombre:\nJuan").0 == "Juan"
  {
    LabeledTrimmedValue("Nombre:\nJuan", NombreLabel, "", "\n", "Juan", "");
  }

  /** Blank lines and indentation after a label are skipped too: the value is
      the first text that is not white space, up to the end of its line. */
  lemma NameAfterBlankLine()
    ensures ParseFields("Nombre:\n\n  Juan\nX").0 == "Juan"
  {
    LabeledTrimmedValue("Nombre:\n\n  Juan\nX", NombreLabel, "", "\n\n  ", "Juan", "\nX");
  }

  /** A label followed by a blank at the end of the text gives the empty name,
      not the sentinel. */
  lemma BlankNameAtEnd()
    ensures ParseFields("Nombre: ").0 == ""
  {
  }

  /** A label followed only by a line break at the end of the text is no match. */
  lemma NewlineOnlyNameNotFound()
    ensures ParseFields("Nombre:\n").0 == NombreNotFound
  {
  }
}

=== FILE: main_routes.dfy ===
/** The route handlers of main.py, as transitions from (request, store) to
    (answer, store): `/upload` parses only, `/whatsapp` ingests a downloaded
    image and answers with a text message. */
module MainRoutes {
  import opened Common
  import opened Text
  import opened Regex
  import opened Extraction
  import opened Database
  import opened Requests

  /** POST /upload: validation, save, OCR and parse; no insert and no lookup. */
  function Upload(file: Option<UploadedFile>, s: Store, w: World): (r: Step<Response>)
    ensures r.store == s
    ensures file.None? ==> r.response == Response(400, ErrorBody(NoFileError))
    ensures file.Some? && file.value.filename == "" ==> r.response == Response(400, ErrorBody(EmptyFileError))
    ensures r.response.status == 200 <==> file.Some? && file.value.filename != "" && w.saveOk
    ensures r.response.status == 200 ==>
              var rec := IngestedRecord(w.ocr, file.value.content);
              r.response.body == FieldsBody(rec.nombre, rec.direccion)
    ensures r.response.status == 500 ==> r.response.body == ErrorBody(ProcessingError)
    ensures r.response.status == 400 <==> file.None? || file.value.filename == ""
    ensures r.response.status in {200, 400, 500}
  {
    match ValidateUpload(file)
    case Some(rejection) => Step(rejection, s)
    case None =>
      if !w.saveOk then Step(Response(500, ErrorBody(ProcessingError)), s)
      else
        var fields := ParseFields(ExtractText(w.ocr, file.value.content));
        Step(Response(200, FieldsBody(fields.0, fields.1)), s)
  }

  /** The text replies of POST /whatsapp. */
  datatype Reply =
    | AskForImage
    | Apology
    | Summary(nombre: string, direccion: string, resultado: Resultado)

  const AskForImageText: string := "Por favor, envía una imagen para procesar."
  const ApologyText: string := "Hubo un error al procesar tu imagen. Por favor, intenta nuevamente."

  /** The message body of a reply; `show` is Python's `str` of the result dict. */
  function ReplyText(reply: Reply, show: Resultado -> string): (r: string)
    ensures reply.AskForImage? ==> r == AskForImageText
    ensures reply.Apology? ==> r == ApologyText
  {
    match reply
    case AskForImage => AskForImageText
    case Apology => ApologyText
    case Summary(n, d, res) => "Nombre: " + n + "\nDirección: " + d + "\nResultado: " + show(res)
  }

  /** POST /whatsapp. `mediaUrl` is the form field `MediaUrl0`. Every
      exception before the insert ends in the apology, and nothing after the
      insert raises, so the store changes exactly when the summary is sent. */
  function WhatsApp(mediaUrl: Option<string>, s: Store, w: World): (r: Step<Reply>)
    ensures mediaUrl.None? ==> r == Step(AskForImage, s)
    ensures mediaUrl.Some? && !r.response.Summary? ==> r.response == Apology
    ensures !r.response.Summary? ==> r.store == s
    ensures r.response.Summary? <==>
              mediaUrl.Some? && w.download(mediaUrl.value).Some? && w.saveOk && w.readOk && w.insertOk
    ensures r.response.Summary? ==>
              var rec := IngestedRecord(w.ocr, Preprocess(w.normalize, w.download(mediaUrl.value).value));
              && r.store == InsertOne(s, rec)
              && r.response.nombre == rec.nombre
              && r.response.direccion == rec.direccion
              && r.response.resultado == Lookup(r.store, rec.nombre, rec.direccion, w.lookupOk)
    ensures r.response.Summary? && w.lookupOk ==>
              r.response.resultado.Document? &&
              Matches(r.response.resultado.record, r.response.nombre, r.response.direccion)
    ensures r.response.Summary? && !w.lookupOk ==> r.response.resultado == Mensaje(SearchErrorMessage)
  {
    match mediaUrl
    case None => Step(AskForImage, s)
    case Some(url) =>
      match w.download(url)
      case None => Step(Apology, s)
      case Some(data) =>
        if !w.saveOk then Step(Apology, s)
        else
          var image := Preprocess(w.normalize, data);
          var fields := ParseFields(ExtractText(w.ocr, image));
          if !w.readOk || !w.insertOk then Step(Apology, s)
          else
            var rec := Record(fields.0, fields.1, image);
            var s' := InsertOne(s, rec);
            InsertThenLookup(s, rec);
            Step(Summary(fields.0, fields.1, Lookup(s', fields.0, fields.1, w.lookupOk)), s')
  }

  /** An occurrence of a newline-free label that starts in `u` but not within
      `u`'s last `|tag| - 1` characters lies in `u`; one that reaches past `u`
      would have to contain the '\n' that follows it. */
  lemma LabelBeforeNewline(t: string, u: string, tag: string, p: nat)
    requires |u| < |t| && t[..|u|] == u && t[|u|] == '\n'
    requires '\n' !in tag && p < |u|
    requires !LabelAt(u, tag, p)
    ensures !LabelAt(t, tag, p)
  {
  }

  /** The name line of a summary holds no address label when the name does not. */
  lemma NameLineHasNoAddressLabel(n: string)
    requires forall p: nat :: !LabelAt(n, DireccionLabel, p)
    ensures forall p: nat :: !LabelAt("Nombre: " + n, DireccionLabel, p)
  {
    var u := "Nombre: " + n;
    forall p: nat ensures !LabelAt(u, DireccionLabel, p) {
      if 8 <= p && p + |DireccionLabel| <= |u| {
        assert u[p..p + |DireccionLabel|] == n[p - 8..p - 8 + |DireccionLabel|];
        assert !LabelAt(n, DireccionLabel, p - 8);
      } else if p < 8 && p + |DireccionLabel| <= |u| {
        assert u[p..p + |DireccionLabel|][0] == u[p] != 'D';
      }
    }
  }

  /** The address label of a summary is the first one in it. */
  lemma SummaryAddressLabelFirst(t: string, n: string, rest: string)
    requires forall p: nat :: !LabelAt(n, DireccionLabel, p)
    requires t == "Nombre: " + n + "\n" + rest
    ensures forall p: nat :: p < |"Nombre: " + n + "\n"| ==> !LabelAt(t, DireccionLabel, p)
  {
    var u := "Nombre: " + n;
    NameLineHasNoAddressLabel(n);
    assert t[..|u|] == u && t[|u|] == '\n';
    forall p: nat | p <= |u| ensures !LabelAt(t, DireccionLabel, p) {
      if p < |u| {
        LabelBeforeNewline(t, u, DireccionLabel, p);
      } else if p + |DireccionLabel| <= |t| {
        assert t[p..p + |DireccionLabel|][0] == '\n';
      }
    }
  }

  /** The name of a summary is read back from its first line. */
  lemma SummaryName(t: string, n: string, tail: string)
    requires |n| > 0 && Trimmed(n) && '\n' !in n
    requires |tail| > 0 && tail[0] == '\n'
    requires t == "Nombre: " + n + tail
    ensures FindField(t, NombreLabel) == Some(n)
  {
    assert t == [] + NombreLabel + " " + n + tail;
    LabeledTrimmedValue(t, NombreLabel, [], " ", n, tail);
  }

  /** The address of a summary is read back from its second line. */
  lemma SummaryAddress(t: string, n: string, d: string, tail: string)
    requires |d| > 0 && Trimmed(d) && '\n' !in d
    requires forall p: nat :: !LabelAt(n, DireccionLabel, p)
    requires |tail| > 0 && tail[0] == '\n'
    requires t == "Nombre: " + n + "\nDirección: " + d + tail
    ensures FindField(t, DireccionLabel) == Some(d)
  {
    var pre := "Nombre: " + n + "\n";
    assert t == pre + DireccionLabel + " " + d + tail;
    SummaryAddressLabelFirst(t, n, DireccionLabel + " " + d + tail);
    LabeledTrimmedValue(t, DireccionLabel, pre, " ", d, tail);
  }

  /** The summary message, read back by the field parser, gives the same
      name and address, provided the name is not empty and does not itself
      contain the address label. */
  lemma SummaryReparses(n: string, d: string, res: Resultado, show: Resultado -> string)
    requires |n| > 0 && Trimmed(n) && '\n' !in n
    requires |d| > 0 && Trimmed(d) && '\n' !in d
    requires forall p: nat :: !LabelAt(n, DireccionLabel, p)
    ensures ParseFields(ReplyText(Summary(n, d, res), show)) == (n, d)
  {
    var t := ReplyText(Summary(n, d, res), show);
    var tail2 := "\nResultado: " + show(res);
    var tail1 := "\nDirección: " + d + tail2;
    assert t == "Nombre: " + n + "\nDirección: " + d + tail2;
    assert t == "Nombre: " + n + tail1;
    assert tail1[0] == '\n' && tail2[0] == '\n';
    SummaryName(t, n, tail1);
    SummaryAddress(t, n, d, tail2);
  }
}

=== FILE: regex.dfy ===
/** Python's `re.search(tag + r'\s*(.+)', text)` for a literal label, with
    the group's span as result. `\s` is `Text.IsSpace`, `.` is any character
    but '\n', and both quantifiers are greedy with backtracking. */
module Regex {
  import opened Common
  import opened Text

  /** The span `[start, end)` of a captured group within the searched text. */
  datatype Span = Span(start: nat, end: nat)

  /** A successful search: where the label starts and what group 1 spans. */
  datatype Match = Match(pos: nat, group: Span)

  /** The literal label occurs in `t` at position `p` (case-sensitive, anywhere on a line). */
  predicate LabelAt(t: string, tag: string, p: nat)
  {
    p + |tag| <= |t| && t[p..p + |tag|] == tag
  }

  /** Reference semantics of `\s*(.+)` at `q`: `\s*` consumes `t[q..j]` and
      `(.+)` captures the non-empty, newline-free `t[j..m]`. */
  ghost predicate Accepts(t: string, q: nat, j: nat, m: nat)
  {
    && q <= j < m <= |t|
    && (forall k :: q <= k < j ==> IsSpace(t[k]))
    && (forall k :: j <= k < m ==> t[k] != '\n')
  }

  /** The split a backtracking matcher reports: the longest `\s*` that still
      lets `(.+)` match, and then the longest `(.+)`. */
  ghost predicate Preferred(t: string, q: nat, j: nat, m: nat)
  {
    && Accepts(t, q, j, m)
    && forall j': nat, m': nat :: Accepts(t, q, j', m') ==> j' < j || (j' == j && m' <= m)
  }

  /** Some split lets `\s*(.+)` match at `q`. */
  ghost predicate Matchable(t: string, q: nat)
  {
    exists j: nat, m: nat :: Accepts(t, q, j, m)
  }

  /** The end of the line that contains position `i`: the next '\n' or the end of `t`. */
  function LineEnd(t: string, i: nat): (m: nat)
    requires i <= |t|
    ensures i <= m <= |t|
    ensures forall k :: i <= k < m ==> t[k] != '\n'
    ensures m < |t| ==> t[m] == '\n'
    decreases |t| - i
  {
    if i == |t| || t[i] == '\n' then i else LineEnd(t, i + 1)
  }

  /** The last position in `[lo, hi)` that holds something other than '\n'. */
  function LastNonNewline(t: string, lo: nat, hi: nat): (r: Option<nat>)
    requires lo <= hi <= |t|
    ensures r.Some? ==> lo <= r.value < hi && t[r.value] != '\n'
    ensures r.Some? ==> forall k :: r.value < k < hi ==> t[k] == '\n'
    ensures r.None? ==> forall k :: lo <= k < hi ==> t[k] == '\n'
    decreases hi
  {
    if hi == lo then None
    else if t[hi - 1] != '\n' then Some(hi - 1)
    else LastNonNewline(t, lo, hi - 1)
  }

  /** Matches `\s*(.+)` at `q`. The white space run is taken whole when
      something follows it; when it runs to the end of `t`, the matcher backs
      off to its last non-newline character, and fails if there is none. */
  function CaptureAt(t: string, q: nat): (r: Option<Span>)
    requires q <= |t|
    ensures r.Some? ==> Preferred(t, q, r.value.start, r.value.end)
    ensures r.None? ==> !Matchable(t, q)
  {
    assert IsSpace('\n');
    var e := SkipSpaces(t, q);
    if e < |t| then
      Some(Span(e, LineEnd(t, e)))
    else
      match LastNonNewline(t, q, e)
      case None =>
        assert !Matchable(t, q) by { AllNewlinesUnmatchable(t, q); }
        None
      case Some(j) =>
        assert Preferred(t, q, j, LineEnd(t, j)) by { BackedOffSplit(t, q, j); }
        Some(Span(j, LineEnd(t, j)))
  }

  /** A run of newlines to the end of the text leaves `(.+)` nothing to match. */
  lemma AllNewlinesUnmatchable(t: string, q: nat)
    requires q <= |t|
    requires forall k :: q <= k < |t| ==> t[k] == '\n'
    ensures !Matchable(t, q)
  {
    forall j: nat, m: nat ensures !Accepts(t, q, j, m) {
      if q <= j < m <= |t| {
        assert t[j] == '\n';
      }
    }
  }

  /** When the white space after `q` runs to the end of the text, the matcher
      backs `\s*` off to `j`, the last character that is not a newline. */
  lemma BackedOffSplit(t: string, q: nat, j: nat)
    requires q <= j < |t| && t[j] != '\n'
    requires forall k :: q <= k < |t| ==> IsSpace(t[k])
    requires forall k :: j < k < |t| ==> t[k] == '\n'
    ensures Preferred(t, q, j, LineEnd(t, j))
  {
    var m := LineEnd(t, j);
    forall j': nat, m': nat | Accepts(t, q, j', m') ensures j' < j || (j' == j && m' <= m) {
      assert t[j'] != '\n';
    }
  }

  /** The whole pattern `tag\s*(.+)` tried at position `p` only. */
  function MatchAt(t: string, tag: string, p: nat): (r: Option<Span>)
    ensures r.Some? ==> LabelAt(t, tag, p) && Preferred(t, p + |tag|, r.value.start, r.value.end)
    ensures r.None? ==> !LabelAt(t, tag, p) || !Matchable(t, p + |tag|)
  {
    if LabelAt(t, tag, p) then CaptureAt(t, p + |tag|) else None
  }

  /** `re.search`: the leftmost position at or after `from` where the pattern matches. */
  function Search(t: string, tag: string, from: nat): (r: Option<Match>)
    ensures r.Some? ==> from <= r.value.pos && MatchAt(t, tag, r.value.pos) == Some(r.value.group)
    ensures r.Some? ==> forall p: nat :: from <= p < r.value.pos ==> MatchAt(t, tag, p).None?
    ensures r.None? ==> forall p: nat :: from <= p ==> MatchAt(t, tag, p).None?
    decreases |t| + 1 - from
  {
    if from > |t| then
      None
    else
      match MatchAt(t, tag, from)
      case Some(g) => Some(Match(from, g))
      case None => Search(t, tag, from + 1)
  }
}

=== FILE: requests.dfy ===
/** What the route handlers of main.py and app.py share: the outcomes of the
    foreign calls they make, the uploaded file, the JSON responses, and the
    record an ingestion stores. */
module Requests {
  import opened Common
  import opened Extraction
  import opened Database

  /** The outcome of every foreign call one request can make. A `None` or a
      `false` stands for a call that raises. */
  datatype World = World(
    ocr: Bytes -> Option<string>,        // Image.open + pytesseract.image_to_string
    download: string -> Option<Bytes>,   // requests.get(url).content
    normalize: Bytes -> Option<Bytes>,   // the PIL conversion inside preprocesar_imagen
    saveOk: bool,                        // writing the uploaded or downloaded file
    readOk: bool,                        // reading the image file back for insert_one
    insertOk: bool,                      // collection.insert_one
    lookupOk: bool,                      // collection.find_one
    renderOk: bool                       // jsonify of the /upload_file answer (app.py:48-52)
  )

  /** The multipart part named `file`. */
  datatype UploadedFile = UploadedFile(filename: string, content: Bytes)

  /** The JSON bodies the upload routes produce. */
  datatype Body =
    | ErrorBody(error: string)
    | FieldsBody(nombre: string, direccion: string)
    | ResultBody(nombre: string, direccion: string, resultado: Resultado)

  /** An HTTP status with its JSON body. */
  datatype Response = Response(status: int, body: Body)

  /** A handler's answer together with the store after the request. */
  datatype Step<+A> = Step(response: A, store: Store)

  const NoFileError: string := "No se envió ningún archivo"
  const EmptyFileError: string := "El archivo está vacío"
  const ProcessingError: string := "Error al procesar el archivo"

  /** The record an ingestion stores for the image file with these bytes:
      the fields parsed from the OCR text of that same file. */
  function IngestedRecord(ocr: Bytes -> Option<string>, image: Bytes): Record
  {
    var fields := ParseFields(ExtractText(ocr, image));
    Record(fields.0, fields.1, image)
  }

  /** The validation both upload routes run first: no `file` part, then an
      empty filename, each a 400 answer. */
  function ValidateUpload(file: Option<UploadedFile>): (r: Option<Response>)
    ensures r.None? <==> file.Some? && file.value.filename != ""
    ensures file.None? ==> r == Some(Response(400, ErrorBody(NoFileError)))
    ensures file.Some? && file.value.filename == "" ==> r == Some(Response(400, ErrorBody(EmptyFileError)))
  {
    if file.None? then Some(Response(400, ErrorBody(NoFileError)))
    else if file.value.filename == "" then Some(Response(400, ErrorBody(EmptyFileError)))
    else None
  }
}

=== FILE: service.dfy ===
/** Both applications over the one shared collection: a request of any of
    the four routes, handled against the store, and a run of requests one
    after the other. */
module Service {
  import opened Common
  import opened Text
  import opened Extraction
  import opened Database
  import opened Requests
  import MainRoutes
  import AppRoutes

  /** An inbound request, by route. */
  datatype Request =
    | PostUpload(file: Option<UploadedFile>)           // main.py POST /upload
    | PostWhatsApp(mediaUrl: Option<string>)           // main.py POST /whatsapp
    | PostUploadFile(file: Option<UploadedFile>)       // app.py POST /upload_file
    | GetDatos(args: map<string, string>)              // app.py GET /datos

  /** What a route answers. */
  datatype Answer =
    | Json(response: Response)
    | Message(reply: MainRoutes.Reply)
    | Page(nombre: string, domicilio: string)

  /** Routes a request to its handler; the store grows by at most one record
      and never loses or changes one. */
  function Handle(req: Request, s: Store, w: World): (r: Step<Answer>)
    ensures r.store == s || (|r.store| == |s| + 1 && r.store[..|s|] == s)
    ensures req.PostUpload? || req.GetDatos? ==> r.store == s
  {
    match req
    case PostUpload(file) =>
      var step := MainRoutes.Upload(file, s, w);
      Step(Json(step.response), step.store)
    case PostWhatsApp(url) =>
      var step := MainRoutes.WhatsApp(url, s, w);
      Step(Message(step.response), step.store)
    case PostUploadFile(file) =>
      var step := AppRoutes.UploadFile(file, s, w);
      Step(Json(step.response), step.store)
    case GetDatos(args) =>
      var page := AppRoutes.ShowData(args);
      Step(Page(page.0, page.1), s)
  }

  /** A request with the outcomes of the foreign calls it makes. */
  datatype Exchange = Exchange(req: Request, world: World)

  /** The store after handling the requests one after the other. */
  function Run(exchanges: seq<Exchange>, s: Store): (final: Store)
    ensures |s| <= |final| <= |s| + |exchanges|
    ensures final[..|s|] == s
    decreases |exchanges|
  {
    if exchanges == [] then s
    else
      var next := Handle(exchanges[0].req, s, exchanges[0].world).store;
      Run(exchanges[1..], next)
  }

  /** A stored field: the parser only ever yields values with no white space
      at either end and no line break (the sentinels included). */
  predicate FieldShaped(v: string)
  {
    Trimmed(v) && '\n' !in v
  }

  /** Every record in the store carries parser-shaped fields. */
  ghost predicate WellFormed(s: Store)
  {
    forall i :: 0 <= i < |s| ==> FieldShaped(s[i].nombre) && FieldShaped(s[i].direccion)
  }

  /** Appending a record with parser-shaped fields keeps the store well formed. */
  lemma AppendPreservesWellFormed(s: Store, rec: Record)
    requires WellFormed(s)
    requires FieldShaped(rec.nombre) && FieldShaped(rec.direccion)
    ensures WellFormed(InsertOne(s, rec))
  {
    var s' := InsertOne(s, rec);
    assert forall i :: 0 <= i < |s| ==> s'[i] == s[i];
  }

  /** Every handler keeps the store well formed. */
  lemma HandlePreservesWellFormed(req: Request, s: Store, w: World)
    requires WellFormed(s)
    ensures WellFormed(Handle(req, s, w).store)
  {
    match req
    case PostUpload(_) =>
    case GetDatos(_) =>
    case PostWhatsApp(url) =>
      var step := MainRoutes.WhatsApp(url, s, w);
      if step.response.Summary? {
        var rec := IngestedRecord(w.ocr, Preprocess(w.normalize, w.download(url.value).value));
        AppendPreservesWellFormed(s, rec);
      }
    case PostUploadFile(file) =>
      var step := AppRoutes.UploadFile(file, s, w);
      if step.store != s {
        AppendPreservesWellFormed(s, IngestedRecord(w.ocr, file.value.content));
      }
  }

  /** A run of requests keeps the store well formed. */
  lemma {:induction false} RunPreservesWellFormed(exchanges: seq<Exchange>, s: Store)
    requires WellFormed(s)
    ensures WellFormed(Run(exchanges, s))
    decreases |exchanges|
  {
    if exchanges != [] {
      HandlePreservesWellFormed(exchanges[0].req, s, exchanges[0].world);
      RunPreservesWellFormed(exchanges[1..], Handle(exchanges[0].req, s, exchanges[0].world).store);
    }
  }

  /** Once a lookup in the shared store finds a document, it keeps finding
      the same one, whatever requests either application handles later. */
  lemma RunKeepsEarlierMatch(exchanges: seq<Exchange>, s: Store, nombre: string, direccion: string)
    requires Lookup(s, nombre, direccion, true).Document?
    ensures Lookup(Run(exchanges, s), nombre, direccion, true) == Lookup(s, nombre, direccion, true)
  {
    var final := Run(exchanges, s);
    assert final == s + final[|s|..];
    AppendKeepsEarlierMatch(s, final[|s|..], nombre, direccion);
  }
}

=== FILE: text.dfy ===
/** Character classes and trimming as Python's `str` defines them. */
module Text {

  /** Python's `str.isspace()`: the characters `\s` matches in a `str` pattern
      and the characters `str.strip()` removes. It covers ' ', '\t', '\n',
      '\r', '\f', '\v' and the other Unicode white space characters. */
  predicate IsSpace(c: char)
  {
    var n := c as int;
    || (9 <= n <= 13)
    || (28 <= n <= 32)
    || n == 0x85
    || n == 0xA0
    || n == 0x1680
    || (0x2000 <= n <= 0x200A)
    || n == 0x2028
    || n == 0x2029
    || n == 0x202F
    || n == 0x205F
    || n == 0x3000
  }

  /** Every character of `s` is white space (vacuously true of ""). */
  ghost predicate AllSpace(s: string)
  {
    forall k :: 0 <= k < |s| ==> IsSpace(s[k])
  }

  /** `s` neither starts nor ends with white space. */
  predicate Trimmed(s: string)
  {
    |s| == 0 || (!IsSpace(s[0]) && !IsSpace(s[|s| - 1]))
  }

  /** The end of the white space run of `s` that starts at `i`. */
  function SkipSpaces(s: string, i: nat): (e: nat)
    requires i <= |s|
    ensures i <= e <= |s|
    ensures forall k :: i <= k < e ==> IsSpace(s[k])
    ensures e < |s| ==> !IsSpace(s[e])
    decreases |s| - i
  {
    if i == |s| || !IsSpace(s[i]) then i else SkipSpaces(s, i + 1)
  }

  /** The start of the white space run of `s` that ends at `j`. */
  function SkipSpacesBack(s: string, j: nat): (b: nat)
    requires j <= |s|
    ensures b <= j
    ensures forall k :: b <= k < j ==> IsSpace(s[k])
    ensures 0 < b ==> !IsSpace(s[b - 1])
  {
    if j == 0 || !IsSpace(s[j - 1]) then j else SkipSpacesBack(s, j - 1)
  }

  /** Python's `s.strip()`: removes leading and trailing white space. */
  function Strip(s: string): (r: string)
    ensures Trimmed(r)
    ensures |r| <= |s|
    ensures r == [] <==> AllSpace(s)
    ensures forall c :: c in r ==> c in s
  {
    var i := SkipSpaces(s, 0);
    if i == |s| then
      []
    else
      var j := SkipSpacesBack(s, |s|);
      s[i..j]
  }

  /** Strip is characterised by what it keeps: whenever `s` is white space,
      then a trimmed middle, then white space, Strip returns that middle. */
  lemma StripExact(pre: string, mid: string, post: string)
    requires AllSpace(pre) && AllSpace(post) && Trimmed(mid)
    ensures Strip(pre + mid + post) == mid
  {
    var s := pre + mid + post;
    if mid == [] {
      assert AllSpace(s) by {
        forall k | 0 <= k < |s| ensures IsSpace(s[k]) {
          if k < |pre| { assert s[k] == pre[k]; } else { assert s[k] == post[k - |pre|]; }
        }
      }
    } else {
      var n := |pre| + |mid|;
      assert s[|pre|] == mid[0] && s[n - 1] == mid[|mid| - 1];
      assert forall k :: 0 <= k < |pre| ==> s[k] == pre[k];
      assert forall k :: n <= k < |s| ==> s[k] == post[k - n];
      var i := SkipSpaces(s, 0);
      var j := SkipSpacesBack(s, |s|);
      assert i == |pre| && j == n;
      assert s[i..j] == mid;
    }
  }

  /** Stripping twice strips no more than stripping once. */
  lemma StripIdempotent(s: string)
    ensures Strip(Strip(s)) == Strip(s)
  {
  }
}
